=== FILE: README.md ===
# Gatling extension: run actions and discovery, modelled in Dafny

This project models the decision logic of the steadybit Gatling extension.
The extension offers two ways to run a Gatling load test from an experiment,
plus a discovery of simulations:

- **Local run action** (`extgatling`). `Prepare` stages the uploaded
  simulation sources. It picks the source language (Scala, then Kotlin, then
  Java) and assembles the Maven command line with the profile flag of that
  language. `Status` turns the spawned process's exit code and output lines
  into a status result: -1 running, 0 success, 2 failing assertions,
  anything else an error. `Stop` sends the process group SIGINT and then,
  after a 10 second deadline, SIGKILL (`gracefulKill`). It then reports the
  final exit code; 130, the exit status the JVM returns after handling
  SIGINT, counts as a clean stop.
  Output lines go through a shared filter (`stdOutToMessages`,
  `stdOutToLog`). The filter removes line feeds, trims white space and drops
  lines with nothing visible.
- **Enterprise run action** (`extgatlingenterprise`).
  - `Prepare` accepts a target that carries exactly one simulation id.
  - `Status` polls the run and reports each state change once, as an Info
    message plus a widget line.
  - `Status` classifies the run status:
    - below 4 is running;
    - 8 is failed assertions;
    - 9 to 13 are errors;
    - every other code from 4 up succeeds, StopRequested (15) included.
  - `Stop` summarises the assertions. It aborts the run only while the
    status is below 4.
- **Discovery** (`extgatlingenterprise/discovery.go`). Every listed
  simulation becomes one target. Its attributes name the simulation's id,
  name, class and team, plus its package id when there is one.

Modules:

| module | file | models |
|---|---|---|
| `Wrappers` | wrappers.dfy | `Option` and `Result`, in place of nil pointers and `(value, error)` pairs |
| `Text` | text.dfy | `strings.TrimSpace`, `strings.ReplaceAll(_, "\n", "")`, `strings.HasSuffix`, decimal rendering (`%d`, `strconv.Itoa`) with its inverse |
| `ActionKit` | action_kit.dfy | the message, error and result records the actions fill in |
| `Common` | common.dfy | `stdOutToMessages` / `stdOutToLog` |
| `LocalRun` | local_run.dfy | the local run action: `Prepare`, `Status`, `Stop`, `gracefulKill` |
| `Discovery` | discovery.dfy | `DiscoverTargets` |
| `EnterpriseRun` | enterprise_run.dfy | the enterprise run action: `Prepare`, `Status`, `statusToString`, `appendDots`, `Stop` |

Several inputs are passed in as values, because I/O is not modelled:

- the process state the command registry holds;
- the outcome of the filesystem steps of `Prepare`;
- the exit codes `gracefulKill` observes at each one-second tick;
- the run that the Gatling Enterprise API returns;
- the result of the abort call;
- the list of simulations.

## Model

| member | source | states |
|---|---|---|
| Text.TrimSpace | extgatling/common.go:27 | the trimmed text is empty exactly when the line is all white space; otherwise it starts and ends with a visible character |
| Text.TrimSpaceIsTrim | extgatling/common.go:27 | TrimSpace cuts only white space from both ends (reference definition `IsTrimOf`) |
| Text.TrimUnique | extgatling/common.go:27 | there is only one trim of a string, so `IsTrimOf` determines TrimSpace completely |
| Text.TrimSpaceIdempotent | extgatling/common.go:27 | trimming twice is trimming once |
| Text.RemoveNewlines | extgatling/common.go:27 | the result has no line feed, and a line without line feeds is unchanged |
| Text.RemoveNewlinesKeepsOthers | extgatling/common.go:27 | only line feeds are removed: the multiset of the other characters is kept |
| Text.RemoveNewlinesAppend | extgatling/common.go:27 | removal works piece by piece over a concatenation, so the kept characters stay in their order |
| Text.RemoveNewlinesOfChar | extgatling/common.go:27 | a lone line feed vanishes and any other single character is kept |
| Text.NatToString | extgatling/run.go:279 | decimal digits with no leading zero; a single digit exactly below 10 |
| Text.ParseIntToString | extgatling/run.go:279 | "%d" rendering reads back to the same integer, negatives included |
| Text.IntToStringInjective | extgatling/run.go:279 | different integers render differently |
| Text.IntToString | extgatlingenterprise/action_run.go:228 | the `strconv.Itoa`/"%d" rendering: non-empty, a leading minus sign exactly for negative numbers, decimal digits otherwise (read back by ParseIntToString) |
| Common.Visible | extgatling/common.go:27 | a line's visible text starts and ends with a non-space character when it is not empty |
| Common.StdOutToMessages | extgatling/common.go:24-36 | no more messages than lines; every message is Info level, has no type and has non-empty text |
| Common.MessagesComeFromLines | extgatling/common.go:26-33 | every message text is the visible text of some input line |
| Common.NoMessagesIffNothingVisible | extgatling/common.go:24-36 | no messages exactly when no line has visible content; in particular none for empty input |
| Common.MessagePerLineIffAllVisible | extgatling/common.go:24-36 | one message per line exactly when every line has visible content |
| Common.StdOutToMessagesAppend | extgatling/common.go:26-34 | the messages of a + b are those of a followed by those of b, so input order is kept |
| Common.StdOutToMessagesOfLine | extgatling/common.go:27-33 | a single line gives one message carrying its visible text, or none |
| Common.CollectMessages | extgatling/common.go:24-36 | the Go loop computes the recursive filter-map exactly |
| Common.StdOutToLog | extgatling/common.go:15-22 | no more log lines than input lines |
| Common.LogMatchesMessages | extgatling/common.go:15-36 | the log has one "---- "-prefixed line per message, with the same text and in the same order |
| Common.DropInvisibleLine | extgatling/common.go:27-28 | a line without visible content contributes nothing |
| Common.WhitespaceLinesExample | extgatling/run_test.go:123-127 | `["  ", "Line with content", "\n", "\t"]` yields exactly one message, "Line with content" |
| Common.CleanLinesKeptWhole | extgatling/run_test.go:113-122 | lines with content and nothing to trim, such as the single-line and three-line inputs of the unit tests, give exactly one message each, carrying the line itself, in order |
| LocalRun.HasFileWithSuffix | extgatling/run.go:203-221 | true exactly when some non-directory entry's name ends with the suffix |
| LocalRun.DetectLanguage | extgatling/run.go:157-168 | the chosen language has a file, and no language earlier in the order Scala, Kotlin, Java has one; "No source files found." exactly when no language has one |
| LocalRun.ProfileMatchesLanguage | extgatling/run.go:191-195 | ProfileFlags of the source folder gives -Pkotlin for Kotlin, -Pscala for Scala and no flag for Java |
| LocalRun.CommandStart | extgatling/run.go:176-182 | the command starts with mvn, integration-test, -o, the run description and the results folder, in that order |
| LocalRun.FixedArgs | extgatling/run.go:176-182 | five fixed arguments, none of which Maven reads as a profile flag (second character not 'P') |
| LocalRun.ParameterArgs | extgatling/run.go:186-190 | one "-D<key>=<value> " argument per parameter, in input order, a missing key or value reading as empty |
| LocalRun.CommandLayout | extgatling/run.go:183-195 | in the order the command is appended in, the fixed arguments come first, the simulation class follows them when named, then one argument per parameter in input order, and the profile flags last |
| LocalRun.ArgumentsBeforeProfile | extgatling/run.go:176-190 | no argument before the profile flag can be read as a Maven profile |
| LocalRun.ProfileFlagIffLanguage | extgatling/run.go:191-195 | in the command BuildCommand assembles, whose last part is ProfileFlags of the source folder, -Pkotlin appears exactly for Kotlin and -Pscala exactly for Scala |
| LocalRun.SimulationClassIffNamed | extgatling/run.go:183-185 | in the command BuildCommand assembles, the simulation-class argument sits at position 5 exactly when a simulation was named |
| LocalRun.Prepare | extgatling/run.go:128-200 | staging failures come first, then "No source files found.", then the rename failure; success exactly when all pass, recording the execution id and the command built for the detected language and keeping pid and command state |
| LocalRun.Status | extgatling/run.go:249-288 | a registry miss is "Failed to find command state"; otherwise completed exactly when the code is not -1, no error exactly for -1 and 0, Failed for 2, Errored naming the code otherwise; messages are the filtered output |
| LocalRun.StatusOutcome | extgatling/run.go:263-281 | Status reports exactly the exit-code table -1/0/2/other |
| LocalRun.ErroredTitleNamesCode | extgatling/run.go:276-280 | the errored title identifies the exit code |
| LocalRun.StopResultFor | extgatling/run.go:306-329 | the filtered output, plus exactly one Error message naming the code when it is positive and no other Error message; no error exactly for codes ≤ 0 and 130, Failed for 2, Errored otherwise |
| LocalRun.StopResultOutcome | extgatling/run.go:313-329 | Stop's classification matches the stop outcome table |
| LocalRun.SignalEndedRunReadsAsRunning | extgatling/run.go:260-313 | exit code -1, which Go also reports for a process a signal ended, reads as still running with no error in Status, and as a clean stop with only the output messages in Stop |
| LocalRun.GracefulKill | extgatling/run.go:372-395 | no signal if the process already exited; otherwise SIGINT to -pid once, and SIGKILL to -pid once exactly when every observation before the deadline was -1; polling stops at the first exit |
| LocalRun.Stop | extgatling/run.go:290-357 | empty command state id: no result and no signal; registry miss: "Failed to find command state" and no signal; otherwise termination is escalated: SIGINT to -pid first when the process was running, then SIGKILL exactly when every reading before the deadline was -1, and at most once; a report-folder or zip failure becomes the error (the zip error with its cause, as corrected under Findings); on success the result is StopResultFor |
| LocalRun.ZipErrorAsWrittenLosesCause | extgatling/run.go:348-351 | as written, every zip failure yields the same error, with no detail |
| LocalRun.ZipError | extgatling/run.go:348-351 | corrected: the zip failure is the error's detail |
| LocalRun.ZipErrorKeepsCause | extgatling/run.go:348-351 | corrected: different zip failures give different errors |
| Discovery.Attributes | extgatlingenterprise/discovery.go:92-101 | label, id, name, class and team id, each a singleton list of the matching field; the package id exactly when it is non-empty; no other key |
| Discovery.ToTarget | extgatlingenterprise/discovery.go:102-107 | target id is the simulation id, label its name, type the given target type |
| Discovery.SimulationOfToTarget | extgatlingenterprise/discovery.go:92-107 | the simulation can be read back from its target unchanged |
| Discovery.DiscoverTargets | extgatlingenterprise/discovery.go:87-110 | one target per simulation, in the same order, each exactly the target built from that simulation (so it carries the label, the five fixed keys and the package id exactly when non-empty) and reading back to it; an empty list gives no targets |
| EnterpriseRun.Prepare | extgatlingenterprise/action_run.go:88-105 | success exactly with one simulation id; "No simulation id provided" for none (missing key included), "More than one simulation id provided" for several; on success the id is recorded, lastState is -1, the execution id and experiment key are taken over when present |
| EnterpriseRun.PrepareDiscoveredTarget | extgatlingenterprise/action_run.go:89-96 | a discovered target always passes Prepare with its simulation's id |
| EnterpriseRun.StatusToString | extgatlingenterprise/action_run.go:195-230 | unknown codes render as "Unknown (n)"; known names do not start with "U" |
| EnterpriseRun.StatusNameRoundTrip | extgatlingenterprise/action_run.go:195-230 | every status code, unknown codes included, can be read back from its name |
| EnterpriseRun.StatusToStringInjective | extgatlingenterprise/action_run.go:195-230 | different codes have different names |
| EnterpriseRun.AppendDots | extgatlingenterprise/action_run.go:188-193 | "..." exactly for codes up to 3, empty otherwise |
| EnterpriseRun.StateChangeMessages | extgatlingenterprise/action_run.go:145-154 | two messages: an Info line without a type, "Simulation state: " followed by a name from which the new status code reads back; then a GATLING-typed line without a level, "- " and the same readable name, ending in "..." exactly for the in-progress codes 0-3 |
| EnterpriseRun.ChangeMessagesFor | extgatlingenterprise/action_run.go:145-154 | for any shown name and dots, the Info line is the state prefix followed by the name and the widget line splits into "- ", the name and the dots |
| EnterpriseRun.Status | extgatlingenterprise/action_run.go:133-186 | fetch failure is "Failed to get run info"; the two state-change messages exactly when the status differs from lastState, which then holds the status and nothing else changes; an API error completes with Errored; otherwise completed exactly from 4, Failed for 8, Errored for 9..13, no error for the rest |
| EnterpriseRun.StatusOutcome | extgatlingenterprise/action_run.go:158-183 | Status reports exactly the run-outcome table |
| EnterpriseRun.StopRequestedCompletes | extgatlingenterprise/action_run.go:168-183 | StopRequested (15) is a completed run without error |
| EnterpriseRun.DotsWhileRunning | extgatlingenterprise/action_run.go:151-168 | on a state change the widget line ends in "..." exactly for status ≤ 3; when the API reports no error this is exactly when the poll reports the run as not completed, while a poll with an API error completes even though its line may end in "..." |
| EnterpriseRun.PollMessagesCount | extgatlingenterprise/action_run.go:143-156 | over a sequence of polls, two messages per state change and none for a repeated status |
| EnterpriseRun.SuccessfulRunScenario | extgatlingenterprise/action_run.go:143-183 | statuses 0, 1, 3, 3, 4 after Prepare give four state changes (eight messages), and the last poll, made from the state the first four polls reached, completes without error |
| EnterpriseRun.AssertionLine | extgatlingenterprise/action_run.go:248-255 | a summary line is "- ", then the icon of the assertion's result, then a space, the assertion message, and " (" with the shown value and ")" |
| EnterpriseRun.AssertionLineIcon | extgatlingenterprise/action_run.go:249-254 | a summary line shows the check mark exactly for a passed assertion and the cross exactly for a failed one |
| EnterpriseRun.AssertionSummary | extgatlingenterprise/action_run.go:242-258 | no messages for no assertions; otherwise the header then one line per assertion in order, all of the GATLING type without level; the loop builds exactly the Summary that Stop reports |
| EnterpriseRun.Stop | extgatlingenterprise/action_run.go:232-271 | empty run id: no result and no API call; fetch failure: "Failed to get run info"; the abort is called exactly for status below 4, and its failure is "Failed to abort run"; otherwise the result carries the summary and no error |
| EnterpriseRun.EndedRunNotAborted | extgatlingenterprise/action_run.go:260-268 | a run with status 4 or above, StopRequested included, is only fetched, never aborted |

## Left out

- Filesystem and processes are not modelled: mkdir, cp, unzip, mv, the directory walk, spawning Maven and reading the report folder. Their outcomes are parameters (`Staging`, `ProcessView`, `observed`, `reportFailure`, `zipFailure`).
- The artifacts `Stop` attaches (zipped reports, base64 content) and the `File2Base64` error are not modelled: they are file contents.
- The command-state registry of the extcmd library is not modelled: its lookup is a `Result` parameter, and its removal has no observable effect here.
- `Start` of both actions is not modelled. It spawns the process or calls the API, and builds links from configuration.
- The Gatling Enterprise HTTP client, JSON decoding and TLS setup are not modelled (simulations_api.go). The fetched run, the abort outcome and the simulation list are inputs.
- Describe, configuration, main, the e2e tests and discovery's interval parsing are not modelled: they hold no decision logic.
- EnterpriseRun.Assertion: the float `ActualValue` and its `%.0f` rendering are not modelled. `shownValue` stands for the rendered text.
- Text.IsSpace: only the ASCII white space and U+0085 and U+00A0 are treated as space. The other Unicode spaces that `strings.TrimSpace` also removes are not modelled.
- LocalRun.GracefulKill: timing is abstracted to ten one-second ticks, nine polls and then the deadline. The race between the deadline and a tenth timer is resolved in favour of the deadline. The signal syscalls' errors are ignored, as in the source.
- LocalRun.Stop: the final exit code is taken from the process view and is not tied to the codes `gracefulKill` observed.
- LocalRun.Stop: a failed report zip yields the corrected error `ZipError`, whose detail is the zip failure. As written, run.go:350 gives the same title with no detail (`ZipErrorAsWritten`); see Findings.
- LocalRun.Status: Go's `ExitCode()` returns -1 both while the process runs and after a signal ended it. The model keeps this single code, as the source does, so it cannot express the signal case separately. `SignalEndedRunReadsAsRunning` states the consequence for `Status` and `Stop`: a signal-ended process reads as running in `Status` and is reported by `Stop` as a clean stop. `GracefulKill`'s ensures that SIGKILL is sent exactly when all ten readings are -1 gives the consequence for the polling: a group a signal ended keeps being polled until SIGKILL.
- LocalRun.Prepare: the panic on a missing execution id or experiment key pointer is not modelled; the request carries plain values.
- EnterpriseRun.Prepare: the nil-pointer panics on a missing `Target` (action_run.go:89) or `ExecutionContext` (action_run.go:97, 100) are not modelled; the request carries the target attributes and optional plain values.
- Configuration unmarshalling is not modelled separately. Its failure is one of the staging failures.

Where the code and the extension's documented behaviour differ, the model follows the code (the one exception is the zip error of `Stop`, corrected as recorded under Findings):

- the local `Status` treats only -1 as running, not every negative code;
- in the enterprise example run, the status sequence 0, 1, 3, 3, 4 has four state changes, and each change produces two messages, so eight messages in all.

## Findings

| source | as written | input that shows it | evidently intended | confidence | as-written member | corrected member |
|---|---|---|---|---|---|---|
| extgatling/run.go:350 | the "Failed to zip report" error takes its detail from `err`, the result of the preceding `os.Stat`, which is nil on this path | any report directory whose `zip` command fails, e.g. with "zip: not found" | the detail is the zip error `zipErr` | high (not executed) | LocalRun.ZipErrorAsWrittenLosesCause | LocalRun.ZipError |

=== FILE: action_kit.dfy ===
/** The slice of the action-kit API the two run actions speak: leveled
    messages, the error attached to a status or stop result, and the error
    a lifecycle call fails with. The action-kit library itself is not part
    of this model; only the record shapes the actions fill in are. */
module ActionKit {
  import opened Wrappers

  datatype Level = Info | Error

  /** A message shown to the user. `level` and `kind` (the Go field `Type`)
      are optional, as the pointers they model are. */
  datatype Message = Message(level: Option<Level>, text: string, kind: Option<string>)

  /** The message type the enterprise action uses for its markdown widget. */
  const GatlingKind := "GATLING"

  function InfoMessage(text: string): Message {
    Message(Some(Info), text, None)
  }

  function ErrorMessage(text: string): Message {
    Message(Some(Error), text, None)
  }

  function GatlingMessage(text: string): Message {
    Message(None, text, Some(GatlingKind))
  }

  /** Failed marks a run whose checks failed; Errored an infrastructure or
      tooling failure. */
  datatype ErrorStatus = Failed | Errored

  datatype ActionKitError = ActionKitError(status: ErrorStatus, title: string)

  datatype StatusResult = StatusResult(completed: bool, error: Option<ActionKitError>, messages: seq<Message>)

  datatype StopResult = StopResult(messages: seq<Message>, error: Option<ActionKitError>)

  /** The error a lifecycle call itself returns (extension_kit.ToError). */
  datatype ExtensionError = ExtensionError(title: string, detail: Option<string>)

  /** The outcome vocabulary both backends are reported in. */
  datatype Outcome = StillRunning | Succeeded | AssertionFailure | OutcomeFailure

  /** How the orchestrator reads a completed flag and an optional error. */
  function OutcomeOf(completed: bool, error: Option<ActionKitError>): Outcome {
    if !completed then StillRunning
    else match error
      case None => Succeeded
      case Some(e) => if e.status == Failed then AssertionFailure else OutcomeFailure
  }
}

=== FILE: common.dfy ===
/** The output line filter shared by the local run action: raw process
    output lines become trimmed, non-empty Info messages (stdOutToMessages)
    and log lines (stdOutToLog). */
module Common {
  import opened Wrappers
  import opened Text
  import opened ActionKit

  /** The text a raw line contributes: line feeds removed, then trimmed.
      Empty when the line has nothing visible. */
  function Visible(line: string): (t: string)
    ensures t != [] ==> !IsSpace(t[0]) && !IsSpace(t[|t| - 1])
  {
    TrimSpace(RemoveNewlines(line))
  }

  /** The messages one line contributes: none, or one Info message. */
  function LineMessages(line: string): seq<Message> {
    var t := Visible(line);
    if t == [] then [] else [InfoMessage(t)]
  }

  /** stdOutToMessages as a recursive filter-map over the lines. */
  function StdOutToMessages(lines: seq<string>): (ms: seq<Message>)
    ensures |ms| <= |lines|
    ensures forall k :: 0 <= k < |ms| ==> IsVisibleInfo(ms[k])
  {
    if lines == [] then [] else LineMessages(lines[0]) + StdOutToMessages(lines[1..])
  }

  /** An Info message with no type and a non-empty text. */
  ghost predicate IsVisibleInfo(m: Message) {
    && m.level == Some(Info) && m.kind == None && m.text != []
  }

  /** Every message text is the visible text of some input line, so it is
      trimmed and free of line feeds' effects. */
  lemma {:induction false} MessagesComeFromLines(lines: seq<string>)
    ensures forall k :: 0 <= k < |StdOutToMessages(lines)| ==>
              exists i :: 0 <= i < |lines| && StdOutToMessages(lines)[k].text == Visible(lines[i])
  {
    if lines != [] {
      MessagesComeFromLines(lines[1..]);
      var ms, head, tail := StdOutToMessages(lines), LineMessages(lines[0]), StdOutToMessages(lines[1..]);
      assert ms == head + tail;
      forall k | 0 <= k < |ms| ensures exists i :: 0 <= i < |lines| && ms[k].text == Visible(lines[i]) {
        if k < |head| {
          assert ms[k].text == Visible(lines[0]);
        } else {
          assert ms[k] == tail[k - |head|];
          var i :| 0 <= i < |lines[1..]| && tail[k - |head|].text == Visible(lines[1..][i]);
          assert lines[1..][i] == lines[i + 1];
          assert ms[k].text == Visible(lines[i + 1]);
        }
      }
      assert forall k :: 0 <= k < |ms| ==> exists i :: 0 <= i < |lines| && ms[k].text == Visible(lines[i]);
    } else {
      assert StdOutToMessages(lines) == [];
    }
  }

  /** No message at all exactly when no line has visible content; in
      particular empty input gives no messages. */
  lemma {:induction false} NoMessagesIffNothingVisible(lines: seq<string>)
    ensures StdOutToMessages(lines) == [] <==> forall i :: 0 <= i < |lines| ==> Visible(lines[i]) == []
  {
    if lines != [] {
      var rest := lines[1..];
      NoMessagesIffNothingVisible(rest);
      assert StdOutToMessages(lines) == LineMessages(lines[0]) + StdOutToMessages(rest);
      if forall i :: 0 <= i < |lines| ==> Visible(lines[i]) == [] {
        forall i | 0 <= i < |rest| ensures Visible(rest[i]) == [] {
          assert rest[i] == lines[i + 1];
        }
      } else {
        var i :| 0 <= i < |lines| && Visible(lines[i]) != [];
        if i > 0 {
          assert rest[i - 1] == lines[i];
        }
      }
    }
  }

  /** One message per line exactly when every line has visible content. */
  lemma {:induction false} MessagePerLineIffAllVisible(lines: seq<string>)
    ensures |StdOutToMessages(lines)| == |lines| <==> forall i :: 0 <= i < |lines| ==> Visible(lines[i]) != []
  {
    if lines != [] {
      var rest := lines[1..];
      MessagePerLineIffAllVisible(rest);
      assert StdOutToMessages(lines) == LineMessages(lines[0]) + StdOutToMessages(rest);
      if forall i :: 0 <= i < |lines| ==> Visible(lines[i]) != [] {
        forall i | 0 <= i < |rest| ensures Visible(rest[i]) != [] {
          assert rest[i] == lines[i + 1];
        }
      } else {
        var i :| 0 <= i < |lines| && Visible(lines[i]) == [];
        if i > 0 {
          assert rest[i - 1] == lines[i];
        }
      }
    }
  }

  /** The filter respects concatenation: the messages of a + b are those of
      a followed by those of b. With StdOutToMessagesOfLine this fixes the
      output completely: each line in turn, in input order. */
  lemma {:induction false} StdOutToMessagesAppend(a: seq<string>, b: seq<string>)
    ensures StdOutToMessages(a + b) == StdOutToMessages(a) + StdOutToMessages(b)
    decreases |a|
  {
    if a == [] {
      assert a + b == b;
    } else {
      assert (a + b)[0] == a[0];
      assert (a + b)[1..] == a[1..] + b;
      StdOutToMessagesAppend(a[1..], b);
    }
  }

  lemma StdOutToMessagesOfLine(line: string)
    ensures StdOutToMessages([line]) == LineMessages(line)
    ensures |StdOutToMessages([line])| == 1 <==> Visible(line) != []
    ensures Visible(line) != [] ==> StdOutToMessages([line])[0].text == Visible(line)
  {
    assert [line][1..] == [];
  }

  /** Extending the prefix read so far by one line extends the messages by
      that line's messages. */
  lemma StdOutToMessagesPrefixStep(lines: seq<string>, i: nat)
    requires i < |lines|
    ensures StdOutToMessages(lines[..i + 1]) == StdOutToMessages(lines[..i]) + LineMessages(lines[i])
  {
    assert lines[..i + 1] == lines[..i] + [lines[i]];
    StdOutToMessagesAppend(lines[..i], [lines[i]]);
    StdOutToMessagesOfLine(lines[i]);
  }

  /** The Go loop of stdOutToMessages: append one message per line with
      visible content. It computes the recursive filter-map. */
  method CollectMessages(lines: seq<string>) returns (messages: seq<Message>)
    ensures messages == StdOutToMessages(lines)
  {
    messages := [];
    var i := 0;
    while i < |lines|
      invariant 0 <= i <= |lines|
      invariant messages == StdOutToMessages(lines[..i])
    {
      StdOutToMessagesPrefixStep(lines, i);
      var trimmed := Visible(lines[i]);
      if |trimmed| > 0 {
        messages := messages + [InfoMessage(trimmed)];
      }
      i := i + 1;
    }
    assert lines[..i] == lines;
  }

  /** stdOutToLog: one log line "---- <text>" per line with visible content. */
  function StdOutToLog(lines: seq<string>): (log: seq<string>)
    ensures |log| <= |lines|
  {
    if lines == [] then []
    else
      var t := Visible(lines[0]);
      (if t == [] then [] else ["---- " + t]) + StdOutToLog(lines[1..])
  }

  /** The log carries exactly the texts the messages carry, each behind the
      "---- " marker, in the same order. */
  lemma {:induction false} LogMatchesMessages(lines: seq<string>)
    ensures |StdOutToLog(lines)| == |StdOutToMessages(lines)|
    ensures forall k :: 0 <= k < |StdOutToLog(lines)| ==>
              StdOutToLog(lines)[k] == "---- " + StdOutToMessages(lines)[k].text
  {
    if lines != [] {
      LogMatchesMessages(lines[1..]);
      var t := Visible(lines[0]);
      var head := if t == [] then [] else ["---- " + t];
      var log, rest := StdOutToLog(lines), StdOutToLog(lines[1..]);
      var ms, tail := StdOutToMessages(lines), StdOutToMessages(lines[1..]);
      assert log == head + rest;
      assert ms == LineMessages(lines[0]) + tail;
      forall k | 0 <= k < |log| ensures log[k] == "---- " + ms[k].text {
        if k >= |head| {
          assert log[k] == rest[k - |head|];
          assert ms[k] == tail[k - |head|];
        }
      }
    }
  }

  lemma StdOutToMessagesCons(line: string, rest: seq<string>)
    ensures StdOutToMessages([line] + rest) == LineMessages(line) + StdOutToMessages(rest)
  {
    assert ([line] + rest)[1..] == rest;
  }

  /** A line with nothing visible contributes nothing. */
  lemma DropInvisibleLine(line: string, rest: seq<string>)
    requires LineMessages(line) == []
    ensures StdOutToMessages([line] + rest) == StdOutToMessages(rest)
  {
    StdOutToMessagesCons(line, rest);
  }

  lemma NothingVisibleInPair(a: string, b: string)
    requires LineMessages(a) == [] && LineMessages(b) == []
    ensures StdOutToMessages([a, b]) == []
  {
    DropInvisibleLine(b, []);
    assert [b] + [] == [b];
    DropInvisibleLine(a, [b]);
    assert [a] + [b] == [a, b];
  }

  lemma OneVisibleOfFour(a: string, c: string, n: string, t: string)
    requires LineMessages(c) == [InfoMessage(c)]
    requires LineMessages(a) == [] && LineMessages(n) == [] && LineMessages(t) == []
    ensures StdOutToMessages([a, c, n, t]) == [InfoMessage(c)]
  {
    var lines := [a, c, n, t];
    assert lines[1..] == [c, n, t];
    NothingVisibleInPair(n, t);
    StdOutToMessagesCons(c, [n, t]);
    assert [c] + [n, t] == [c, n, t];
  }

  /** A line without line feeds and without space at either end is kept whole. */
  lemma VisibleOfTrimmedLine(line: string)
    requires '\n' !in line && line != [] && !IsSpace(line[0]) && !IsSpace(line[|line| - 1])
    ensures Visible(line) == line
  {
    assert TrimmedAt(line, line, 0, |line|);
    TrimmedAtIsTrimSpace(line, line, 0, |line|);
  }


  /** The content line of the unit test, checked apart from the others so
      that the four-line example below stays cheap to verify. */
  lemma ContentLineVisible(line: string)
    requires line == "Line with content"
    ensures Visible(line) == line
  {
    VisibleOfTrimmedLine(line);
  }

  lemma BlankLinesInvisible()
    ensures Visible("  ") == [] && Visible("\n") == [] && Visible("\t") == []
  {
    assert AllSpace("  ") && AllSpace("\t");
    assert RemoveNewlines("\n") == [] + RemoveNewlines([]);
    assert AllSpace([]);
  }

  /** The four-line case of the unit tests: blank, whitespace-only and
      newline-only lines are dropped, leaving one message. */
  lemma WhitespaceLinesExample()
    ensures StdOutToMessages(["  ", "Line with content", "\n", "\t"])
            == [InfoMessage("Line with content")]
  {
    BlankLinesInvisible();
    ContentLineVisible("Line with content");
    OneVisibleOfFour("  ", "Line with content", "\n", "\t");
  }

  /** A line with content and nothing to trim: no line feed, and no space
      at either end. The lines of the single- and multi-line unit tests
      ("Test message"; "Line 1", "Line 2", "Line 3") are of this kind. */
  ghost predicate CleanLine(line: string) {
    '\n' !in line && line != [] && !IsSpace(line[0]) && !IsSpace(line[|line| - 1])
  }

  /** Clean lines each give exactly one message, carrying the line itself. */
  lemma {:induction false} CleanLinesKeptWhole(lines: seq<string>)
    requires forall i :: 0 <= i < |lines| ==> CleanLine(lines[i])
    ensures |StdOutToMessages(lines)| == |lines|
    ensures forall k :: 0 <= k < |lines| ==> StdOutToMessages(lines)[k] == InfoMessage(lines[k])
  {
    if lines != [] {
      var rest := lines[1..];
      assert forall i :: 0 <= i < |rest| ==> rest[i] == lines[i + 1];
      CleanLinesKeptWhole(rest);
      VisibleOfTrimmedLine(lines[0]);
      var ms, tail := StdOutToMessages(lines), StdOutToMessages(rest);
      assert ms == [InfoMessage(lines[0])] + tail;
      forall k | 0 <= k < |lines| ensures ms[k] == InfoMessage(lines[k]) {
        if k > 0 {
          assert ms[k] == tail[k - 1];
        }
      }
    } else {
      assert StdOutToMessages(lines) == [];
    }
  }
}

=== FILE: discovery.dfy ===
/** Discovery of Gatling Enterprise simulations: every simulation the API
    lists becomes one target whose attributes carry the simulation's
    identity. The simulation list is an input; fetching it is not modelled. */
module Discovery {
  import opened Wrappers

  datatype Build = Build(pkgId: string)

  datatype Simulation = Simulation(id: string, name: string, teamId: string, className: string, build: Build)

  /** A discovery target (targetLabel is the Go field Label, `label` being
      reserved in Dafny); attributes map a
      key to a list of values. */
  datatype Target = Target(id: string, targetType: string, targetLabel: string, attributes: map<string, seq<string>>)

  const LabelKey := "steadybit.label"
  const IdKey := "gatling.simulation.id"
  const NameKey := "gatling.simulation.name"
  const ClassKey := "gatling.simulation.class"
  const TeamIdKey := "gatling.simulation.team.id"
  const PackageIdKey := "gatling.simulation.package.id"

  /** The keys every target carries. */
  const FixedKeys: set<string> := {LabelKey, IdKey, NameKey, ClassKey, TeamIdKey}

  /** The attribute map of one simulation. */
  function Attributes(s: Simulation): (a: map<string, seq<string>>)
    ensures a.Keys == if s.build.pkgId == "" then FixedKeys else FixedKeys + {PackageIdKey}
    ensures a[LabelKey] == [s.name] && a[IdKey] == [s.id] && a[NameKey] == [s.name]
    ensures a[ClassKey] == [s.className] && a[TeamIdKey] == [s.teamId]
    ensures PackageIdKey in a ==> a[PackageIdKey] == [s.build.pkgId]
  {
    var fixed := map[LabelKey := [s.name], IdKey := [s.id], NameKey := [s.name],
                     ClassKey := [s.className], TeamIdKey := [s.teamId]];
    if s.build.pkgId != "" then fixed[PackageIdKey := [s.build.pkgId]] else fixed
  }

  function ToTarget(targetType: string, s: Simulation): (t: Target)
    ensures t.id == s.id && t.targetLabel == s.name && t.targetType == targetType
    ensures t.attributes == Attributes(s)
  {
    Target(s.id, targetType, s.name, Attributes(s))
  }

  /** The single value under key, when the key holds exactly one. */
  function Single(a: map<string, seq<string>>, key: string): Option<string> {
    if key in a && |a[key]| == 1 then Some(a[key][0]) else None
  }

  /** Reads a simulation back from a target's attributes: the inverse of
      ToTarget, and what the run action relies on when it takes the
      simulation id from the target. */
  function SimulationOf(t: Target): Option<Simulation> {
    var a := t.attributes;
    match (Single(a, IdKey), Single(a, NameKey), Single(a, TeamIdKey), Single(a, ClassKey))
    case (Some(id), Some(name), Some(team), Some(cls)) =>
      var pkg := if PackageIdKey in a && |a[PackageIdKey]| == 1 then a[PackageIdKey][0] else "";
      Some(Simulation(id, name, team, cls, Build(pkg)))
    case _ => None
  }

  /** No information is lost between a simulation and its target. */
  lemma SimulationOfToTarget(targetType: string, s: Simulation)
    ensures SimulationOf(ToTarget(targetType, s)) == Some(s)
  {
    var a := Attributes(s);
    assert Single(a, IdKey) == Some(s.id);
    assert Single(a, NameKey) == Some(s.name);
    assert Single(a, TeamIdKey) == Some(s.teamId);
    assert Single(a, ClassKey) == Some(s.className);
  }

  /** The discovery loop: one target per simulation, in order. */
  method DiscoverTargets(targetType: string, simulations: seq<Simulation>) returns (targets: seq<Target>)
    ensures |targets| == |simulations|
    ensures forall i :: 0 <= i < |targets| ==>
              targets[i].id == simulations[i].id && targets[i].targetLabel == simulations[i].name
              && targets[i].targetType == targetType
    ensures forall i :: 0 <= i < |targets| ==> targets[i] == ToTarget(targetType, simulations[i])
    ensures forall i :: 0 <= i < |targets| ==> SimulationOf(targets[i]) == Some(simulations[i])
  {
    targets := [];
    var i := 0;
    while i < |simulations|
      invariant 0 <= i <= |simulations|
      invariant |targets| == i
      invariant forall k :: 0 <= k < i ==> targets[k] == ToTarget(targetType, simulations[k])
      invariant forall k :: 0 <= k < i ==> SimulationOf(targets[k]) == Some(simulations[k])
    {
      SimulationOfToTarget(targetType, simulations[i]);
      targets := targets + [ToTarget(targetType, simulations[i])];
      i := i + 1;
    }
  }
}

=== FILE: enterprise_run.dfy ===
/** The Gatling Enterprise run action: Prepare validates the target's
    simulation id, Status polls the run and reports state changes once, and
    Stop summarises the assertions and aborts a run that is still in
    progress. The Gatling Enterprise API is not called: the fetched run and
    the abort outcome are inputs. */
module EnterpriseRun {
  import opened Wrappers
  import opened Text
  import opened ActionKit
  import Discovery

  datatype RunState = RunState(experimentKey: string, executionId: int, simulationId: string, runId: string, lastState: int)

  /** One assertion of a run. The actual value is a float that the source
      renders with "%.0f"; shownValue is that rendering. */
  datatype Assertion = Assertion(message: string, result: bool, shownValue: string)

  /** The parts of GatlingRunResponse the action reads. */
  datatype RunResponse = RunResponse(status: int, error: string, assertions: seq<Assertion>)

  // ---------------------------------------------------------------- Prepare

  const SimulationIdKey := Discovery.IdKey
  const NoSimulationId := ExtensionError("No simulation id provided", None)
  const SeveralSimulationIds := ExtensionError("More than one simulation id provided", None)

  /** The values under a key; a missing key reads as the empty list. */
  function Values(attributes: map<string, seq<string>>, key: string): seq<string> {
    if key in attributes then attributes[key] else []
  }

  /** Prepare: exactly one simulation id is accepted. The execution id and
      experiment key are taken over when present, and no state has been
      seen yet. */
  function Prepare(state: RunState, attributes: map<string, seq<string>>,
                   executionId: Option<int>, experimentKey: Option<string>): (r: Result<RunState, ExtensionError>)
    ensures r.Ok? <==> |Values(attributes, SimulationIdKey)| == 1
    ensures r == Err(NoSimulationId) <==> Values(attributes, SimulationIdKey) == []
    ensures r == Err(SeveralSimulationIds) <==> |Values(attributes, SimulationIdKey)| > 1
    ensures r.Ok? ==> r.value == RunState(experimentKey.GetOr(state.experimentKey), executionId.GetOr(state.executionId),
                                          attributes[SimulationIdKey][0], state.runId, -1)
  {
    var ids := Values(attributes, SimulationIdKey);
    if |ids| == 0 then Err(NoSimulationId)
    else if |ids| > 1 then Err(SeveralSimulationIds)
    else
      var s := state.(simulationId := ids[0], lastState := -1);
      var s := if executionId.Some? then s.(executionId := executionId.value) else s;
      if experimentKey.Some? then Ok(s.(experimentKey := experimentKey.value)) else Ok(s)
  }

  /** A target produced by discovery always passes Prepare, which picks up
      the id of the simulation it was made from. */
  lemma PrepareDiscoveredTarget(state: RunState, targetType: string, sim: Discovery.Simulation,
                                executionId: Option<int>, experimentKey: Option<string>)
    ensures var r := Prepare(state, Discovery.ToTarget(targetType, sim).attributes, executionId, experimentKey);
            r.Ok? && r.value.simulationId == sim.id && r.value.lastState == -1
  {
    assert Values(Discovery.Attributes(sim), SimulationIdKey) == [sim.id];
  }

  // ---------------------------------------------------------------- status names

  /** The run states the API documents; any other code is unknown. */
  predicate KnownStatus(status: int) {
    0 <= status <= 13 || status == 15
  }

  /** Names of the codes 0 to 13, in order. */
  const StatusNames: seq<string> := [
    "Building", "Deploying", "Deployed", "Injecting", "Successful", "AssertionsSuccessful",
    "AutomaticallyStopped", "Stopped", "AssertionsFailed", "Timeout", "BuildFailed", "Broken",
    "DeploymentFailed", "InsufficientLicense"]

  const StopRequestedName := "StopRequested"
  const UnknownPrefix := "Unknown ("

  /** The display name of a status code; total, with a readable fallback. */
  function StatusToString(status: int): (name: string)
    ensures !KnownStatus(status) ==> name == UnknownPrefix + IntToString(status) + ")"
    ensures KnownStatus(status) ==> name != [] && name[0] != 'U'
  {
    if 0 <= status < |StatusNames| then StatusNames[status]
    else if status == 15 then StopRequestedName
    else UnknownPrefix + IntToString(status) + ")"
  }

  /** Index of name in names, if it occurs. */
  function IndexOf(names: seq<string>, name: string): (r: Option<nat>)
    ensures r.Some? ==> r.value < |names| && names[r.value] == name
    ensures r.None? ==> name !in names
  {
    if names == [] then None
    else if names[0] == name then Some(0)
    else match IndexOf(names[1..], name)
      case Some(i) => Some(i + 1)
      case None => None
  }

  /** Reads a status code back from its display name. */
  function StatusFromName(name: string): Option<int> {
    if |name| > |UnknownPrefix| && name[..|UnknownPrefix|] == UnknownPrefix && name[|name| - 1] == ')' then
      ParseInt(name[|UnknownPrefix|..|name| - 1])
    else if name == StopRequestedName then Some(15)
    else match IndexOf(StatusNames, name)
      case Some(i) => Some(i)
      case None => None
  }

  /** The fourteen names of the codes 0 to 13 are pairwise distinct, and none
      is StopRequested. */
  lemma StatusNamesDistinct()
    ensures forall i, j :: 0 <= i < j < |StatusNames| ==> StatusNames[i] != StatusNames[j]
    ensures StopRequestedName !in StatusNames
  {
  }

  lemma IndexOfDistinct(names: seq<string>, i: nat)
    requires i < |names|
    requires forall a, b :: 0 <= a < b < |names| ==> names[a] != names[b]
    ensures IndexOf(names, names[i]) == Some(i)
  {
    if i > 0 {
      assert names[1..][i - 1] == names[i];
      IndexOfDistinct(names[1..], i - 1);
    }
  }

  /** StatusFromName inverts StatusToString: the displayed name identifies
      the status code, unknown codes included. */
  lemma StatusNameRoundTrip(status: int)
    ensures StatusFromName(StatusToString(status)) == Some(status)
  {
    var name := StatusToString(status);
    if KnownStatus(status) {
      if |name| > |UnknownPrefix| {
        assert name[..|UnknownPrefix|][0] != UnknownPrefix[0];
      }
      StatusNamesDistinct();
      if status != 15 {
        IndexOfDistinct(StatusNames, status);
      }
    } else {
      assert name[..|UnknownPrefix|] == UnknownPrefix;
      assert name[|UnknownPrefix|..|name| - 1] == IntToString(status);
      ParseIntToString(status);
    }
  }

  lemma StatusToStringInjective(a: int, b: int)
    requires StatusToString(a) == StatusToString(b)
    ensures a == b
  {
    StatusNameRoundTrip(a);
    StatusNameRoundTrip(b);
  }

  /** The trailing dots of the widget line: "..." while the run is in
      progress, nothing once it has ended. */
  function AppendDots(status: int): (dots: string)
    ensures dots == "..." <==> status <= 3
    ensures dots == "" <==> status > 3
  {
    if status <= 3 then "..." else ""
  }

  // ---------------------------------------------------------------- Status

  const FetchFailedTitle := "Failed to get run info"

  /** The two messages a state change produces: an Info line for the log and
      a widget line. */
  function StateChangeMessages(status: int): (ms: seq<Message>)
    ensures |ms| == 2 && ms[0].level == Some(Info) && ms[1].kind == Some(GatlingKind)
    ensures |ms[0].text| > |StatePrefix| && StatusFromName(ms[0].text[|StatePrefix|..]) == Some(status)
    ensures ms[0].text[..|StatePrefix|] == StatePrefix
    ensures ms[0].kind.None? && ms[1].level.None?
    ensures var w := ms[1].text;
            && |w| > 2 && w[..2] == "- "
            && if status <= 3 then |w| > 5 && w[|w| - 3..] == "..." && StatusFromName(w[2..|w| - 3]) == Some(status)
               else StatusFromName(w[2..]) == Some(status)
  {
    var name := StatusToString(status);
    StatusNameRoundTrip(status);
    NameDoesNotEndInDot(status);
    var ms := ChangeMessagesFor(name, AppendDots(status));
    assert ms[0].text[|StatePrefix|..] == name;
    if status <= 3 then
      assert ms[1].text[2..|ms[1].text| - 3] == name;
      ms
    else
      assert ms[1].text[2..] == name;
      ms
  }

  /** The two state-change messages for a status shown as name, with dots
      appended to the widget line. */
  function ChangeMessagesFor(name: string, dots: string): (ms: seq<Message>)
    ensures |ms| == 2 && ms[0].level == Some(Info) && ms[1].kind == Some(GatlingKind)
    ensures ms[0].kind.None? && ms[1].level.None?
    ensures |ms[0].text| == |StatePrefix| + |name|
    ensures ms[0].text[..|StatePrefix|] == StatePrefix && ms[0].text[|StatePrefix|..] == name
    ensures var w := ms[1].text;
            |w| == 2 + |name| + |dots| && w[..2] == "- " && w[2..|w| - |dots|] == name && w[|w| - |dots|..] == dots
  {
    var log := StatePrefix + name;
    var widget := "- " + name + dots;
    assert log[..|StatePrefix|] == StatePrefix && log[|StatePrefix|..] == name;
    assert widget[..2] == "- " && widget[2..|widget| - |dots|] == name && widget[|widget| - |dots|..] == dots;
    [InfoMessage(log), GatlingMessage(widget)]
  }

  const StatePrefix := "Simulation state: "

  function RunErrorTitle(error: string): string {
    "Simulation error: " + error
  }

  function EndedTitle(status: int): string {
    "Simulation ended: " + StatusToString(status)
  }

  /** The state after a poll together with its result. */
  datatype StatusStep = StatusStep(state: RunState, result: StatusResult)

  /** One status poll against the fetched run. */
  function Status(state: RunState, fetched: Result<RunResponse, string>): (r: Result<StatusStep, ExtensionError>)
    ensures fetched.Err? ==> r == Err(ExtensionError(FetchFailedTitle, Some(fetched.error)))
    ensures fetched.Ok? ==> r.Ok? && r.value.state == state.(lastState := fetched.value.status)
    ensures fetched.Ok? ==> (r.value.result.messages != [] <==> state.lastState != fetched.value.status)
    ensures fetched.Ok? && state.lastState != fetched.value.status ==>
              r.value.result.messages == StateChangeMessages(fetched.value.status)
    ensures fetched.Ok? && fetched.value.error != "" ==>
              r.value.result.completed && r.value.result.error == Some(ActionKitError(Errored, RunErrorTitle(fetched.value.error)))
    ensures fetched.Ok? && fetched.value.error == "" ==>
              && (r.value.result.completed <==> fetched.value.status >= 4)
              && (r.value.result.error.None? <==> !(8 <= fetched.value.status <= 13))
              && (fetched.value.status == 8 ==> r.value.result.error == Some(ActionKitError(Failed, EndedTitle(8))))
              && (9 <= fetched.value.status <= 13 ==>
                    r.value.result.error == Some(ActionKitError(Errored, EndedTitle(fetched.value.status))))
  {
    match fetched
    case Err(e) => Err(ExtensionError(FetchFailedTitle, Some(e)))
    case Ok(run) =>
      var messages := if state.lastState != run.status then StateChangeMessages(run.status) else [];
      var next := state.(lastState := run.status);
      if run.error != "" then
        Ok(StatusStep(next, StatusResult(true, Some(ActionKitError(Errored, RunErrorTitle(run.error))), messages)))
      else if run.status >= 4 then
        var error :=
          if run.status == 8 then Some(ActionKitError(Failed, EndedTitle(run.status)))
          else if 9 <= run.status <= 13 then Some(ActionKitError(Errored, EndedTitle(run.status)))
          else None;
        Ok(StatusStep(next, StatusResult(true, error, messages)))
      else
        Ok(StatusStep(next, StatusResult(false, None, messages)))
  }

  /** How the orchestrator reads a run, stated without reference to Status:
      an API error fails the run, codes below 4 are still running, 8 is an
      assertion failure, 9 to 13 are failures and every other code succeeds. */
  function RunOutcome(run: RunResponse): Outcome {
    if run.error != "" then OutcomeFailure
    else if run.status < 4 then StillRunning
    else if run.status == 8 then AssertionFailure
    else if 9 <= run.status <= 13 then OutcomeFailure
    else Succeeded
  }

  lemma StatusOutcome(state: RunState, run: RunResponse)
    ensures var r := Status(state, Ok(run)).value.result;
            OutcomeOf(r.completed, r.error) == RunOutcome(run)
  {
  }

  /** StopRequested (15) counts as a completed, successful run, because
      every code from 4 up ends the run. */
  lemma StopRequestedCompletes(state: RunState, run: RunResponse)
    requires run.status == 15 && run.error == ""
    ensures var r := Status(state, Ok(run)).value.result;
            r.completed && r.error.None? && RunOutcome(run) == Succeeded
  {
  }

  /** The widget line of a state change ends in dots exactly while the same
      poll reports the run as not completed, unless the API reported an error. */
  lemma DotsWhileRunning(state: RunState, run: RunResponse)
    requires state.lastState != run.status
    ensures var r := Status(state, Ok(run)).value.result;
            HasSuffix(r.messages[1].text, "...") <==> run.status <= 3
    ensures var r := Status(state, Ok(run)).value.result;
            run.error == "" ==> (HasSuffix(r.messages[1].text, "...") <==> !r.completed)
    ensures run.error != "" ==> Status(state, Ok(run)).value.result.completed
  {
    var name := StatusToString(run.status);
    var text := "- " + name + AppendDots(run.status);
    if run.status <= 3 {
      HasSuffixOfConcat("- " + name, "...");
    } else {
      assert text == "- " + name;
      NameDoesNotEndInDot(run.status);
      NoSuffixAt(text, "...", 2);
    }
  }

  /** No status name ends in a dot. */
  lemma NameDoesNotEndInDot(status: int)
    ensures var name := StatusToString(status); name != [] && name[|name| - 1] != '.'
  {
    if !KnownStatus(status) {
      var name := StatusToString(status);
      assert name[|name| - 1] == ')';
    }
  }

  // ---------------------------------------------------------------- polling

  /** Number of state changes a sequence of polled codes shows, starting
      from the last code seen. */
  function Changes(last: int, statuses: seq<int>): nat
    decreases |statuses|
  {
    if statuses == [] then 0
    else (if statuses[0] != last then 1 else 0) + Changes(statuses[0], statuses[1..])
  }

  /** Polls the given runs in order, collecting every message; the final
      state and the result of the last poll are returned with them. */
  function PollAll(state: RunState, runs: seq<RunResponse>): (r: (RunState, seq<Message>))
    ensures runs != [] ==> r.0.lastState == runs[|runs| - 1].status
    ensures runs == [] ==> r.0 == state
    decreases |runs|
  {
    if runs == [] then (state, [])
    else
      var messages := Status(state, Ok(runs[0])).value.result.messages;
      var rest := PollAll(state.(lastState := runs[0].status), runs[1..]);
      assert |runs| > 1 ==> runs[1..][|runs| - 2] == runs[|runs| - 1];
      (rest.0, messages + rest.1)
  }

  function StatusCodes(runs: seq<RunResponse>): (codes: seq<int>)
    ensures |codes| == |runs|
    ensures forall k :: 0 <= k < |runs| ==> codes[k] == runs[k].status
  {
    if runs == [] then [] else [runs[0].status] + StatusCodes(runs[1..])
  }

  /** Every state change, and only a change, produces two messages: repeated
      codes are reported once. */
  lemma {:induction false} PollMessagesCount(state: RunState, runs: seq<RunResponse>)
    ensures |PollAll(state, runs).1| == 2 * Changes(state.lastState, StatusCodes(runs))
    decreases |runs|
  {
    if runs != [] {
      var step := Status(state, Ok(runs[0])).value;
      PollMessagesCount(step.state, runs[1..]);
      assert StatusCodes(runs)[1..] == StatusCodes(runs[1..]);
    }
  }

  function InProgressRun(status: int): RunResponse {
    RunResponse(status, "", [])
  }

  /** The polls of a successful run: Building, Deploying, Injecting twice,
      Successful. */
  const SuccessfulRun: seq<RunResponse> :=
    [InProgressRun(0), InProgressRun(1), InProgressRun(3), InProgressRun(3), InProgressRun(4)]

  /** A run polled after Prepare through SuccessfulRun: four state changes,
      eight messages, and the last poll, made from the state the first four
      reached, completes without error. */
  lemma SuccessfulRunScenario(state: RunState)
    requires state.lastState == -1
    ensures |PollAll(state, SuccessfulRun).1| == 8
    ensures PollAll(state, SuccessfulRun).0.lastState == 4
    ensures var reached := PollAll(state, SuccessfulRun[..4]).0;
            Status(reached, Ok(InProgressRun(4))).value.result == StatusResult(true, None, StateChangeMessages(4))
  {
    SuccessfulRunMessages(state);
    var prefix := SuccessfulRun[..4];
    assert prefix[|prefix| - 1] == InProgressRun(3);
    SuccessfulPollCompletes(PollAll(state, prefix).0);
  }

  lemma SuccessfulRunMessages(state: RunState)
    requires state.lastState == -1
    ensures |PollAll(state, SuccessfulRun).1| == 8
  {
    PollMessagesCount(state, SuccessfulRun);
    assert StatusCodes(SuccessfulRun) == [0, 1, 3, 3, 4];
  }

  /** A poll that reaches Successful from another state completes cleanly
      and reports the change. */
  lemma SuccessfulPollCompletes(state: RunState)
    requires state.lastState != 4
    ensures Status(state, Ok(InProgressRun(4))).value.result == StatusResult(true, None, StateChangeMessages(4))
  {
  }

  // ---------------------------------------------------------------- Stop

  const AssertionsHeader := "### Assertions"
  const PassIcon: char := '\U{2705}'
  const FailIcon: char := '\U{274C}'
  const AbortFailedTitle := "Failed to abort run"

  function Icon(passed: bool): char {
    if passed then PassIcon else FailIcon
  }

  /** "- <icon> <message> (<value>)" */
  function AssertionLine(a: Assertion): (line: string)
    ensures |line| > 2 && line[..2] == "- " && line[2] == Icon(a.result)
    ensures |line| >= 4 + |a.message| && line[3] == ' ' && line[4..4 + |a.message|] == a.message
    ensures line[4 + |a.message|..] == " (" + a.shownValue + ")"
  {
    var head := "- " + [Icon(a.result)] + " ";
    var tail := " (" + a.shownValue + ")";
    var line := head + a.message + tail;
    assert |head| == 4;
    assert line[4..4 + |a.message|] == a.message;
    assert line[4 + |a.message|..] == tail;
    line
  }

  /** The icon a summary line carries tells whether its assertion passed. */
  lemma AssertionLineIcon(a: Assertion)
    ensures AssertionLine(a)[2] == PassIcon <==> a.result
    ensures AssertionLine(a)[2] == FailIcon <==> !a.result
  {
  }

  /** The widget lines of a list of assertions, one each, in order. */
  function AssertionLines(assertions: seq<Assertion>): (ms: seq<Message>)
    ensures |ms| == |assertions|
    ensures forall k :: 0 <= k < |ms| ==> ms[k] == GatlingMessage(AssertionLine(assertions[k]))
  {
    if assertions == [] then [] else [GatlingMessage(AssertionLine(assertions[0]))] + AssertionLines(assertions[1..])
  }

  /** The summary loop of Stop: nothing for no assertions, otherwise a header
      followed by one line per assertion. */
  method AssertionSummary(assertions: seq<Assertion>) returns (messages: seq<Message>)
    ensures assertions == [] ==> messages == []
    ensures assertions != [] ==> |messages| == 1 + |assertions| && messages[0] == GatlingMessage(AssertionsHeader)
    ensures forall k :: 0 <= k < |assertions| ==> messages[k + 1] == GatlingMessage(AssertionLine(assertions[k]))
    ensures forall k :: 0 <= k < |messages| ==> messages[k].kind == Some(GatlingKind) && messages[k].level.None?
    ensures messages == Summary(assertions)
  {
    messages := [];
    if |assertions| > 0 {
      messages := [GatlingMessage(AssertionsHeader)];
      var i := 0;
      while i < |assertions|
        invariant 0 <= i <= |assertions|
        invariant |messages| == 1 + i && messages[0] == GatlingMessage(AssertionsHeader)
        invariant forall k :: 0 <= k < i ==> messages[k + 1] == GatlingMessage(AssertionLine(assertions[k]))
        invariant forall k :: 0 <= k < |messages| ==> messages[k].kind == Some(GatlingKind) && messages[k].level.None?
      {
        messages := messages + [GatlingMessage(AssertionLine(assertions[i]))];
        i := i + 1;
      }
      var expected := Summary(assertions);
      forall k | 0 <= k < |messages| ensures messages[k] == expected[k] {
        if k > 0 {
          assert expected[k] == AssertionLines(assertions)[k - 1];
        }
      }
    }
  }

  /** The summary as a value, for stating facts about Stop. */
  function Summary(assertions: seq<Assertion>): seq<Message> {
    if assertions == [] then [] else [GatlingMessage(AssertionsHeader)] + AssertionLines(assertions)
  }

  /** The calls Stop makes to the Gatling Enterprise API. */
  datatype ApiCall = GetRunCall(runId: string) | AbortCall(runId: string)

  datatype StopStep = StopStep(result: Result<Option<StopResult>, ExtensionError>, calls: seq<ApiCall>)

  /** Stop: nothing to do before a run was started; otherwise fetch the run,
      summarise its assertions and abort it while it is still in progress.
      abortFailure is the error the abort call returns, if any. */
  function Stop(state: RunState, fetched: Result<RunResponse, string>, abortFailure: Option<string>): (r: StopStep)
    ensures state.runId == "" ==> r == StopStep(Ok(None), [])
    ensures state.runId != "" ==> |r.calls| >= 1 && r.calls[0] == GetRunCall(state.runId)
    ensures state.runId != "" && fetched.Err? ==>
              r == StopStep(Err(ExtensionError(FetchFailedTitle, Some(fetched.error))), [GetRunCall(state.runId)])
    ensures state.runId != "" && fetched.Ok? ==>
              (AbortCall(state.runId) in r.calls <==> fetched.value.status < 4)
    ensures state.runId != "" && fetched.Ok? && fetched.value.status < 4 && abortFailure.Some? ==>
              r.result == Err(ExtensionError(AbortFailedTitle, abortFailure))
    ensures state.runId != "" && fetched.Ok? && (fetched.value.status >= 4 || abortFailure.None?) ==>
              r.result == Ok(Some(StopResult(Summary(fetched.value.assertions), None)))
  {
    if state.runId == "" then StopStep(Ok(None), [])
    else match fetched
      case Err(e) => StopStep(Err(ExtensionError(FetchFailedTitle, Some(e))), [GetRunCall(state.runId)])
      case Ok(run) =>
        var summary := Summary(run.assertions);
        if run.status < 4 then
          var calls := [GetRunCall(state.runId), AbortCall(state.runId)];
          match abortFailure
          case Some(e) => StopStep(Err(ExtensionError(AbortFailedTitle, Some(e))), calls)
          case None => StopStep(Ok(Some(StopResult(summary, None))), calls)
        else StopStep(Ok(Some(StopResult(summary, None))), [GetRunCall(state.runId)])
  }


  /** A run that ended, StopRequested included, is never aborted again. */
  lemma EndedRunNotAborted(state: RunState, run: RunResponse, abortFailure: Option<string>)
    requires state.runId != "" && run.status >= 4
    ensures Stop(state, Ok(run), abortFailure).calls == [GetRunCall(state.runId)]
  {
  }
}

=== FILE: local_run.dfy ===
/** The local run action of extgatling/run.go: Prepare picks the source
    language of the staged upload and assembles the Maven command line,
    Status and Stop classify the exit code of the spawned process, and
    GracefulKill escalates from SIGINT to SIGKILL. Process spawning, the
    command-state registry and the filesystem are lifted to parameters. */
module LocalRun {
  import opened Wrappers
  import opened Text
  import opened ActionKit
  import Common

  /** GatlingLoadTestRunState. `cmdStateId` is empty until Start ran. */
  datatype RunState = RunState(command: seq<string>, pid: int, cmdStateId: string, executionId: string)

  /** GatlingLoadTestRunConfig: key/value parameters (each a map read at
      "key" and "value"), the uploaded file and the optional simulation class. */
  datatype RunConfig = RunConfig(parameter: seq<map<string, string>>, file: string, simulation: string)

  /** The parts of the prepare request the command line is built from:
      the execution UUID (as text), the experiment key and the execution
      number of the execution context. */
  datatype PrepareRequest = PrepareRequest(executionId: string, experimentKey: string, executionNumber: int, config: RunConfig)

  /** One entry met while walking the staged source folder. */
  datatype Entry = Entry(name: string, isDir: bool)

  /** What the filesystem steps of Prepare produced: the first failure of
      the mkdir/cp/unzip/mv steps, if any; the entries of the staged source
      folder; and the failure of the final rename, if any. */
  datatype Staging = Staging(failure: Option<ExtensionError>, entries: seq<Entry>, renameFailure: Option<string>)

  datatype Language = Scala | Kotlin | Java

  // ------------------------------------------------------ language choice

  /** HasFileWithSuffix over the walked entries: some non-directory entry's
      name ends with the suffix. */
  function HasFileWithSuffix(entries: seq<Entry>, suffix: string): (found: bool)
    ensures found <==> exists i :: 0 <= i < |entries| && !entries[i].isDir && HasSuffix(entries[i].name, suffix)
  {
    if entries == [] then false
    else
      var e := entries[0];
      var rest := HasFileWithSuffix(entries[1..], suffix);
      assert forall i :: 1 <= i < |entries| ==> entries[i] == entries[1..][i - 1];
      (!e.isDir && HasSuffix(e.name, suffix)) || rest
  }

  /** The file suffix each language is detected by (no dot, as written). */
  function FileSuffix(lang: Language): string {
    match lang
    case Scala => "scala"
    case Kotlin => "kt"
    case Java => "java"
  }

  /** The scaffold folder each language's sources are moved to. */
  function FolderName(lang: Language): string {
    match lang
    case Scala => "scala"
    case Kotlin => "kotlin"
    case Java => "java"
  }

  /** Detection order: Scala first, then Kotlin, then Java. */
  function Priority(lang: Language): nat {
    match lang
    case Scala => 0
    case Kotlin => 1
    case Java => 2
  }

  const NoSourceFiles := ExtensionError("No source files found.", None)

  /** The language Prepare settles on: the first in priority order that has
      a matching file, or "No source files found." when none has. */
  function DetectLanguage(entries: seq<Entry>): (r: Result<Language, ExtensionError>)
    ensures r.Ok? ==> HasFileWithSuffix(entries, FileSuffix(r.value))
    ensures r.Ok? ==> forall l: Language :: Priority(l) < Priority(r.value) ==> !HasFileWithSuffix(entries, FileSuffix(l))
    ensures r.Err? <==> forall l: Language :: !HasFileWithSuffix(entries, FileSuffix(l))
    ensures r.Err? ==> r.error == NoSourceFiles
  {
    if HasFileWithSuffix(entries, "scala") then Ok(Scala)
    else if HasFileWithSuffix(entries, "kt") then Ok(Kotlin)
    else if HasFileWithSuffix(entries, "java") then Ok(Java)
    else
      assert forall l: Language :: FileSuffix(l) in {"scala", "kt", "java"};
      Err(NoSourceFiles)
  }

  // ------------------------------------------------------ command line

  function ExecutionRoot(executionId: string): string {
    "/tmp/steadybit/" + executionId
  }

  function ReportFolder(executionId: string): string {
    ExecutionRoot(executionId) + "/report"
  }

  function SourceFolder(executionId: string, lang: Language): string {
    ExecutionRoot(executionId) + "/gatling-maven-scaffold/src/test/" + FolderName(lang)
  }

  /** The Maven profile flag, chosen from the suffix of the source folder. */
  function ProfileFlags(srcFolder: string): seq<string> {
    if HasSuffix(srcFolder, "kotlin") then ["-Pkotlin"]
    else if HasSuffix(srcFolder, "scala") then ["-Pscala"]
    else []
  }

  /** A Java system property argument, "-D<name>=<value>". */
  function Property(body: string): string {
    "-D" + body
  }

  function RunDescription(experimentKey: string, executionNumber: int): string {
    Property("gatling.runDescription=\"executed by Steadybit - Experiment " + experimentKey
             + " - Execution " + IntToString(executionNumber) + "  \"")
  }

  function SimulationClassArg(simulation: string): string {
    Property("gatling.simulationClass=" + simulation)
  }

  function SimulationArgs(simulation: string): seq<string> {
    if simulation != "" then [SimulationClassArg(simulation)] else []
  }

  /** A missing map key reads as the empty string, as in Go. */
  function Lookup(m: map<string, string>, key: string): string {
    if key in m then m[key] else ""
  }

  /** "-D<key>=<value> ", trailing space included as written. */
  function ParameterArg(p: map<string, string>): string {
    Property(Lookup(p, "key") + "=" + Lookup(p, "value") + " ")
  }

  function ParameterArgs(ps: seq<map<string, string>>): (args: seq<string>)
    ensures |args| == |ps|
    ensures forall i :: 0 <= i < |ps| ==> args[i] == ParameterArg(ps[i])
  {
    if ps == [] then [] else [ParameterArg(ps[0])] + ParameterArgs(ps[1..])
  }

  function FixedArgs(req: PrepareRequest): (args: seq<string>)
    ensures |args| == 5
    ensures forall k :: 0 <= k < |args| ==> NotProfile(args[k])
  {
    PropertyNotProfile("gatling.resultsFolder=" + ReportFolder(req.executionId));
    PropertyNotProfile("gatling.runDescription=\"executed by Steadybit - Experiment " + req.experimentKey
                       + " - Execution " + IntToString(req.executionNumber) + "  \"");
    ["mvn", "integration-test", "-o",
     RunDescription(req.experimentKey, req.executionNumber),
     Property("gatling.resultsFolder=" + ReportFolder(req.executionId))]
  }

  /** The command line Prepare stores for the given language. */
  function BuildCommand(req: PrepareRequest, lang: Language): seq<string> {
    CommandWithProfile(req, ProfileFlags(SourceFolder(req.executionId, lang)))
  }

  /** The arguments followed by the given profile flags. */
  function CommandWithProfile(req: PrepareRequest, profile: seq<string>): seq<string> {
    Assemble(FixedArgs(req), req.config, profile)
  }

  /** The order run.go appends in: the fixed arguments, the simulation
      class if one is named, the parameters, the profile flags. */
  function Assemble(fixed: seq<string>, config: RunConfig, profile: seq<string>): seq<string> {
    fixed + SimulationArgs(config.simulation) + ParameterArgs(config.parameter) + profile
  }

  /** The command starts with the five fixed arguments, whatever follows. */
  lemma CommandStart(req: PrepareRequest, profile: seq<string>)
    ensures |CommandWithProfile(req, profile)| >= 5
    ensures CommandWithProfile(req, profile)[..5] == FixedArgs(req)
  {
    CommandLayout(FixedArgs(req), req.config, profile);
  }

  /** Where the parts sit after the fixed arguments: the simulation class
      right after them when one is named, then one argument per parameter
      in order, and the profile flags last. */
  lemma CommandLayout(fixed: seq<string>, config: RunConfig, profile: seq<string>)
    ensures var cmd := Assemble(fixed, config, profile);
            var base := |fixed| + |SimulationArgs(config.simulation)|;
            && |cmd| == base + |config.parameter| + |profile|
            && cmd[..|fixed|] == fixed
            && (config.simulation != "" ==> cmd[|fixed|] == SimulationClassArg(config.simulation))
            && (forall i :: 0 <= i < |config.parameter| ==> cmd[base + i] == ParameterArg(config.parameter[i]))
            && cmd[base + |config.parameter|..] == profile
  {
    var sim, params := SimulationArgs(config.simulation), ParameterArgs(config.parameter);
    var cmd := fixed + sim + params + profile;
    assert cmd[..|fixed|] == fixed;
    assert cmd[|fixed| + |sim| + |params|..] == profile;
  }

  /** Everything on the command line that precedes the profile flag. */
  function ArgsBeforeProfile(req: PrepareRequest): seq<string> {
    FixedArgs(req) + SimulationArgs(req.config.simulation) + ParameterArgs(req.config.parameter)
  }

  /** An argument Maven cannot read as a profile flag: its second
      character is not 'P'. */
  predicate NotProfile(arg: string) {
    |arg| >= 2 && arg[1] != 'P'
  }

  lemma PropertyNotProfile(body: string)
    ensures NotProfile(Property(body))
  {
  }

  lemma ProfileOfFolder(prefix: string, lang: Language)
    ensures ProfileFlags(prefix + FolderName(lang))
            == match lang
               case Kotlin => ["-Pkotlin"]
               case Scala => ["-Pscala"]
               case Java => []
  {
    var folder := prefix + FolderName(lang);
    HasSuffixOfConcat(prefix, FolderName(lang));
    match lang
    case Kotlin =>
    case Scala =>
      assert folder[|folder| - 1] == 'a';
      EndsInANotKotlin(folder);
    case Java =>
      assert folder[|folder| - 1] == 'a' && folder[|folder| - 2] == 'v';
      EndsInANotKotlin(folder);
      EndsInVaNotScala(folder);
  }

  lemma EndsInANotKotlin(folder: string)
    requires folder != [] && folder[|folder| - 1] == 'a'
    ensures !HasSuffix(folder, "kotlin")
  {
    if |folder| >= 6 {
      NoSuffixAt(folder, "kotlin", 5);
    }
  }

  lemma EndsInVaNotScala(folder: string)
    requires |folder| >= 2 && folder[|folder| - 2] == 'v'
    ensures !HasSuffix(folder, "scala")
  {
    if |folder| >= 5 {
      NoSuffixAt(folder, "scala", 3);
    }
  }


  /** The profile flag follows the language: -Pkotlin for Kotlin, -Pscala
      for Scala and none for Java. */
  lemma ProfileMatchesLanguage(executionId: string, lang: Language)
    ensures ProfileFlags(SourceFolder(executionId, lang))
            == match lang
               case Kotlin => ["-Pkotlin"]
               case Scala => ["-Pscala"]
               case Java => []
  {
    ProfileOfFolder(ExecutionRoot(executionId) + "/gatling-maven-scaffold/src/test/", lang);
  }

  lemma ParameterArgsNotProfile(ps: seq<map<string, string>>)
    ensures forall k :: 0 <= k < |ParameterArgs(ps)| ==> NotProfile(ParameterArgs(ps)[k])
  {
    forall k | 0 <= k < |ps| ensures NotProfile(ParameterArgs(ps)[k]) {
      PropertyNotProfile(Lookup(ps[k], "key") + "=" + Lookup(ps[k], "value") + " ");
    }
  }

  /** Every argument but the profile flag is a plain word or a property. */
  lemma ArgumentsBeforeProfile(req: PrepareRequest)
    ensures forall k :: 0 <= k < |ArgsBeforeProfile(req)| ==> NotProfile(ArgsBeforeProfile(req)[k])
  {
    var fixed, sim, params := FixedArgs(req), SimulationArgs(req.config.simulation), ParameterArgs(req.config.parameter);
    var pre := ArgsBeforeProfile(req);
    ParameterArgsNotProfile(req.config.parameter);
    PropertyNotProfile("gatling.simulationClass=" + req.config.simulation);
    forall k | 0 <= k < |pre| ensures NotProfile(pre[k]) {
      if k < |fixed| {
        assert pre[k] == fixed[k];
      } else if k < |fixed| + |sim| {
        assert pre[k] == sim[k - |fixed|];
      } else {
        assert pre[k] == params[k - |fixed| - |sim|];
      }
    }
  }

  /** A flag that reads as a profile occurs in pre + profile only where
      the profile part has it. */
  lemma FlagOnlyInProfile(pre: seq<string>, profile: seq<string>, flag: string)
    requires forall k :: 0 <= k < |pre| ==> NotProfile(pre[k])
    requires !NotProfile(flag)
    ensures flag in pre + profile <==> flag in profile
  {
    if flag in pre + profile {
      var k :| 0 <= k < |pre + profile| && (pre + profile)[k] == flag;
      if k >= |pre| {
        assert profile[k - |pre|] == flag;
      }
    }
  }

  /** "-Pkotlin" is on the command line exactly when Kotlin was chosen, and
      "-Pscala" exactly when Scala was. */
  lemma ProfileFlagIffLanguage(req: PrepareRequest, lang: Language)
    ensures "-Pkotlin" in BuildCommand(req, lang) <==> lang == Kotlin
    ensures "-Pscala" in BuildCommand(req, lang) <==> lang == Scala
  {
    ProfileMatchesLanguage(req.executionId, lang);
    ArgumentsBeforeProfile(req);
    LanguageFlagAfter(ArgsBeforeProfile(req), ProfileFlags(SourceFolder(req.executionId, lang)), lang);
  }

  lemma LanguageFlagAfter(pre: seq<string>, profile: seq<string>, lang: Language)
    requires forall k :: 0 <= k < |pre| ==> NotProfile(pre[k])
    requires profile == match lang
                        case Kotlin => ["-Pkotlin"]
                        case Scala => ["-Pscala"]
                        case Java => []
    ensures "-Pkotlin" in pre + profile <==> lang == Kotlin
    ensures "-Pscala" in pre + profile <==> lang == Scala
  {
    FlagOnlyInProfile(pre, profile, "-Pkotlin");
    FlagOnlyInProfile(pre, profile, "-Pscala");
    assert "-Pkotlin"[2] != "-Pscala"[2];
  }

  /** The simulation class argument sits right after the fixed arguments
      exactly when a simulation was named. */
  lemma SimulationClassIffNamed(req: PrepareRequest, lang: Language)
    ensures var cmd := BuildCommand(req, lang);
            (|cmd| > 5 && cmd[5] == SimulationClassArg(req.config.simulation)) <==> req.config.simulation != ""
  {
    ProfileMatchesLanguage(req.executionId, lang);
    var profile := ProfileFlags(SourceFolder(req.executionId, lang));
    assert forall k :: 0 <= k < |profile| ==> profile[k][|profile[k]| - 1] != '=';
    SimulationClassSlot(req, profile);
  }

  lemma SimulationClassSlot(req: PrepareRequest, profile: seq<string>)
    requires forall k :: 0 <= k < |profile| ==> profile[k] != [] && profile[k][|profile[k]| - 1] != '='
    ensures var cmd := CommandWithProfile(req, profile);
            (|cmd| > 5 && cmd[5] == SimulationClassArg(req.config.simulation)) <==> req.config.simulation != ""
  {
    var cmd := CommandWithProfile(req, profile);
    var sim := req.config.simulation;
    CommandLayout(FixedArgs(req), req.config, profile);
    if sim == "" && |cmd| > 5 {
      var arg := SimulationClassArg(sim);
      assert arg[|arg| - 1] == '=';
      if |req.config.parameter| > 0 {
        var p := ParameterArg(req.config.parameter[0]);
        assert p[|p| - 1] == ' ';
      } else {
        assert cmd[5] == profile[0];
      }
    }
  }

  // ------------------------------------------------------ Prepare

  const PrepareFolderFailedTitle := "Failed to prepare source folder."

  /** Prepare: staging failures first, then language detection, then the
      rename; on success the command and execution id are recorded and the
      rest of the state is left as it was. */
  function Prepare(state: RunState, req: PrepareRequest, staging: Staging): (r: Result<RunState, ExtensionError>)
    ensures staging.failure.Some? ==> r == Err(staging.failure.value)
    ensures staging.failure.None? && DetectLanguage(staging.entries).Err? ==> r == Err(NoSourceFiles)
    ensures staging.failure.None? && DetectLanguage(staging.entries).Ok? && staging.renameFailure.Some? ==>
              r == Err(ExtensionError(PrepareFolderFailedTitle, staging.renameFailure))
    ensures r.Ok? <==> staging.failure.None? && DetectLanguage(staging.entries).Ok? && staging.renameFailure.None?
    ensures r.Ok? ==> r.value.pid == state.pid && r.value.cmdStateId == state.cmdStateId
    ensures r.Ok? ==> r.value.executionId == req.executionId
    ensures r.Ok? ==> r.value.command == BuildCommand(req, DetectLanguage(staging.entries).value)
  {
    if staging.failure.Some? then Err(staging.failure.value)
    else
      var lang :- DetectLanguage(staging.entries);
      if staging.renameFailure.Some? then
        Err(ExtensionError(PrepareFolderFailedTitle, staging.renameFailure))
      else
        Ok(state.(executionId := req.executionId, command := BuildCommand(req, lang)))
  }

  // ------------------------------------------------------ Status

  /** What the command-state registry shows of the process: its exit code
      (-1 while running) and the output lines read in this call. */
  datatype ProcessView = ProcessView(exitCode: int, lines: seq<string>)

  const FailingAssertionsTitle := "Gatling run ended with failing assertions. Reports are attached."
  const CommandStateMissing := "Failed to find command state"

  function ErroredTitle(exitCode: int): string {
    "Gatling run errored, exit-code " + IntToString(exitCode)
  }

  /** The exit-code table the local action reports in: -1 still running,
      0 success, 2 failing assertions, anything else an error. */
  function ExitCodeOutcome(exitCode: int): Outcome {
    if exitCode == -1 then StillRunning
    else if exitCode == 0 then Succeeded
    else if exitCode == 2 then AssertionFailure
    else OutcomeFailure
  }

  function Status(lookup: Result<ProcessView, string>): (r: Result<StatusResult, ExtensionError>)
    ensures lookup.Err? ==> r == Err(ExtensionError(CommandStateMissing, Some(lookup.error)))
    ensures lookup.Ok? ==> r.Ok? && r.value.messages == Common.StdOutToMessages(lookup.value.lines)
    ensures lookup.Ok? ==> (r.value.completed <==> lookup.value.exitCode != -1)
    ensures lookup.Ok? ==> (r.value.error.None? <==> lookup.value.exitCode == -1 || lookup.value.exitCode == 0)
    ensures lookup.Ok? && lookup.value.exitCode == 2 ==> r.value.error == Some(ActionKitError(Failed, FailingAssertionsTitle))
    ensures lookup.Ok? && lookup.value.exitCode !in {-1, 0, 2} ==>
              r.value.error == Some(ActionKitError(Errored, ErroredTitle(lookup.value.exitCode)))
  {
    match lookup
    case Err(e) => Err(ExtensionError(CommandStateMissing, Some(e)))
    case Ok(view) =>
      var messages := Common.StdOutToMessages(view.lines);
      var code := view.exitCode;
      if code == -1 then Ok(StatusResult(false, None, messages))
      else if code == 0 then Ok(StatusResult(true, None, messages))
      else if code == 2 then Ok(StatusResult(true, Some(ActionKitError(Failed, FailingAssertionsTitle)), messages))
      else Ok(StatusResult(true, Some(ActionKitError(Errored, ErroredTitle(code))), messages))
  }

  /** Status reports exactly the exit-code table. */
  lemma StatusOutcome(view: ProcessView)
    ensures Status(Ok(view)).Ok?
    ensures OutcomeOf(Status(Ok(view)).value.completed, Status(Ok(view)).value.error) == ExitCodeOutcome(view.exitCode)
  {
  }

  /** The exit code can be read back from an errored title. */
  lemma ErroredTitleNamesCode(a: int, b: int)
    requires ErroredTitle(a) == ErroredTitle(b)
    ensures a == b
  {
    var prefix := "Gatling run errored, exit-code ";
    assert ErroredTitle(a)[|prefix|..] == IntToString(a);
    assert ErroredTitle(b)[|prefix|..] == IntToString(b);
    IntToStringInjective(a, b);
  }

  // ------------------------------------------------------ Stop

  function StoppedMessage(exitCode: int): Message {
    ErrorMessage("Gatling run stopped with exit code " + IntToString(exitCode))
  }

  /** The result Stop assembles from the final exit code and the drained
      output: the output messages, one Error message for a positive code,
      and an error unless the code is not positive or is 130 (SIGINT). */
  function StopResultFor(view: ProcessView): (r: StopResult)
    ensures var out := Common.StdOutToMessages(view.lines);
            && |r.messages| == |out| + (if view.exitCode > 0 then 1 else 0)
            && r.messages[..|out|] == out
            && (view.exitCode > 0 ==> r.messages[|out|] == StoppedMessage(view.exitCode))
    ensures forall k :: 0 <= k < |r.messages| ==>
              (r.messages[k].level == Some(Error) <==> view.exitCode > 0 && k == |r.messages| - 1)
    ensures r.error.None? <==> view.exitCode <= 0 || view.exitCode == 130
    ensures view.exitCode == 2 ==> r.error == Some(ActionKitError(Failed, FailingAssertionsTitle))
    ensures view.exitCode > 0 && view.exitCode != 2 && view.exitCode != 130 ==>
              r.error == Some(ActionKitError(Errored, ErroredTitle(view.exitCode)))
  {
    var out := Common.StdOutToMessages(view.lines);
    var code := view.exitCode;
    if code > 0 then
      var messages := out + [StoppedMessage(code)];
      assert messages[..|out|] == out;
      if code == 2 then StopResult(messages, Some(ActionKitError(Failed, FailingAssertionsTitle)))
      else if code != 130 then StopResult(messages, Some(ActionKitError(Errored, ErroredTitle(code))))
      else StopResult(messages, None)
    else
      assert out[..|out|] == out;
      StopResult(out, None)
  }

  /** The outcome Stop reports: 130 counts as a clean stop, as does any
      code that is not positive. */
  function StopOutcome(exitCode: int): Outcome {
    if exitCode <= 0 || exitCode == 130 then Succeeded
    else if exitCode == 2 then AssertionFailure
    else OutcomeFailure
  }

  lemma StopResultOutcome(view: ProcessView)
    ensures OutcomeOf(true, StopResultFor(view).error) == StopOutcome(view.exitCode)
  {
  }

  /** Exit code -1 is what Go's ExitCode reports both while the process
      runs and after a signal ended it. Like the source, the model cannot
      tell the two apart: such a process reads as running in Status, and
      Stop reports it as a clean stop with no Error message. */
  lemma SignalEndedRunReadsAsRunning(lines: seq<string>)
    ensures !Status(Ok(ProcessView(-1, lines))).value.completed
    ensures Status(Ok(ProcessView(-1, lines))).value.error.None?
    ensures StopResultFor(ProcessView(-1, lines)).error.None?
    ensures StopResultFor(ProcessView(-1, lines)).messages == Common.StdOutToMessages(lines)
  {
    var out := Common.StdOutToMessages(lines);
    assert StopResultFor(ProcessView(-1, lines)).messages[..|out|] == out;
  }

  // ------------------------------------------------------ gracefulKill

  datatype Signal = SigInt | SigKill

  /** A signal and the process id it was sent to (negative: the group). */
  datatype SignalSent = SignalSent(signal: Signal, target: int)

  /** Polls that fit before the deadline: the context expires 10 s after
      SIGINT and each 1 s timer is armed only after the previous poll, so
      the deadline fires before a tenth poll. */
  const PollLimit: nat := 9

  /** gracefulKill as a tick-driven state machine. observed[0] is the exit
      code read before any signal, observed[t] the code read at the t-th
      one-second poll. Returns the signals sent and the polls made. */
  method GracefulKill(pid: int, observed: seq<int>) returns (sent: seq<SignalSent>, polls: nat)
    requires |observed| == PollLimit + 1
    ensures observed[0] != -1 ==> sent == [] && polls == 0
    ensures observed[0] == -1 ==> sent == [SignalSent(SigInt, -pid)] || sent == [SignalSent(SigInt, -pid), SignalSent(SigKill, -pid)]
    ensures SignalSent(SigKill, -pid) in sent <==> forall t :: 0 <= t <= PollLimit ==> observed[t] == -1
    ensures observed[0] == -1 ==> 1 <= polls <= PollLimit
    ensures forall t :: 1 <= t < polls ==> observed[t] == -1
    ensures observed[0] == -1 && polls < PollLimit ==> observed[polls] != -1
  {
    sent := [];
    polls := 0;
    if observed[0] == -1 {
      sent := [SignalSent(SigInt, -pid)];
      while polls < PollLimit
        invariant 0 <= polls <= PollLimit
        invariant forall t :: 1 <= t <= polls ==> observed[t] == -1
        invariant sent == [SignalSent(SigInt, -pid)]
      {
        polls := polls + 1;
        if observed[polls] != -1 {
          return;
        }
      }
      sent := sent + [SignalSent(SigKill, -pid)];
    }
  }

  const ReportFolderUnreadable := "Failed to read report folder"
  const ZipFailedTitle := "Failed to zip report"

  /** The error for a failed report zip as the source builds it: the detail
      comes from the os.Stat call just before, which succeeded on this path,
      so the zip error itself is dropped. */
  function ZipErrorAsWritten(zipError: string): ExtensionError {
    ExtensionError(ZipFailedTitle, None)
  }

  /** Two different zip failures produce the same error as written. */
  lemma ZipErrorAsWrittenLosesCause(a: string, b: string)
    requires a != b
    ensures ZipErrorAsWritten(a) == ZipErrorAsWritten(b)
    ensures ZipErrorAsWritten(a).detail.None?
  {
  }

  /** The evidently intended error: the zip failure is the detail. */
  function ZipError(zipError: string): (e: ExtensionError)
    ensures e.title == ZipFailedTitle && e.detail == Some(zipError)
  {
    ExtensionError(ZipFailedTitle, Some(zipError))
  }

  /** The corrected error tells zip failures apart. */
  lemma ZipErrorKeepsCause(a: string, b: string)
    requires ZipError(a) == ZipError(b)
    ensures a == b
  {
  }

  /** Stop: nothing to stop before Start; otherwise look the process up,
      escalate termination, then report on the drained output and the final
      exit code. reportFailure is the error listing the report folder gives,
      if any, and zipFailure the error of the first report zip that failed;
      the zipped reports themselves are not part of this model. */
  method Stop(state: RunState, lookup: Result<ProcessView, string>, observed: seq<int>,
              reportFailure: Option<string>, zipFailure: Option<string>)
    returns (r: Result<Option<StopResult>, ExtensionError>, sent: seq<SignalSent>)
    requires |observed| == PollLimit + 1
    ensures state.cmdStateId == "" ==> r == Ok(None) && sent == []
    ensures state.cmdStateId != "" && lookup.Err? ==>
              r == Err(ExtensionError(CommandStateMissing, Some(lookup.error))) && sent == []
    ensures state.cmdStateId != "" && lookup.Ok? && reportFailure.Some? ==>
              r == Err(ExtensionError(ReportFolderUnreadable, reportFailure))
    ensures state.cmdStateId != "" && lookup.Ok? && reportFailure.None? && zipFailure.Some? ==>
              r == Err(ZipError(zipFailure.value))
    ensures state.cmdStateId != "" && lookup.Ok? && reportFailure.None? && zipFailure.None? ==>
              r == Ok(Some(StopResultFor(lookup.value)))
    ensures sent != [] <==> state.cmdStateId != "" && lookup.Ok? && observed[0] == -1
    ensures sent != [] ==> sent[0] == SignalSent(SigInt, -state.pid)
    ensures state.cmdStateId != "" && lookup.Ok? && observed[0] == -1 ==>
              sent == [SignalSent(SigInt, -state.pid)]
              || sent == [SignalSent(SigInt, -state.pid), SignalSent(SigKill, -state.pid)]
    ensures state.cmdStateId != "" && lookup.Ok? ==>
              (SignalSent(SigKill, -state.pid) in sent <==> forall t :: 0 <= t <= PollLimit ==> observed[t] == -1)
    ensures SignalSent(SigKill, -state.pid) in sent ==> forall t :: 0 <= t <= PollLimit ==> observed[t] == -1
  {
    sent := [];
    if state.cmdStateId == "" {
      return Ok(None), [];
    }
    if lookup.Err? {
      return Err(ExtensionError(CommandStateMissing, Some(lookup.error))), [];
    }
    var polls;
    sent, polls := GracefulKill(state.pid, observed);
    r := StopReport(lookup.value, reportFailure, zipFailure);
  }

  /** What Stop returns once the process is dealt with: the report-folder
      error first, then the zip error, otherwise the stop result. */
  function StopReport(view: ProcessView, reportFailure: Option<string>, zipFailure: Option<string>)
    : (r: Result<Option<StopResult>, ExtensionError>)
    ensures reportFailure.Some? ==> r == Err(ExtensionError(ReportFolderUnreadable, reportFailure))
    ensures reportFailure.None? && zipFailure.Some? ==> r == Err(ZipError(zipFailure.value))
    ensures reportFailure.None? && zipFailure.None? ==> r == Ok(Some(StopResultFor(view)))
  {
    if reportFailure.Some? then Err(ExtensionError(ReportFolderUnreadable, reportFailure))
    else if zipFailure.Some? then Err(ZipError(zipFailure.value))
    else Ok(Some(StopResultFor(view)))
  }
}

=== FILE: text.dfy ===
/** The string primitives the extension relies on from Go's standard library:
    strings.TrimSpace, strings.ReplaceAll(line, "\n", ""), strings.HasSuffix,
    and the decimal rendering of integers done by strconv.Itoa and "%d". */
module Text {
  import opened Wrappers

  /** White space as strings.TrimSpace sees it, restricted to the ASCII
      spaces and the two Latin-1 ones (NEL and NO-BREAK SPACE). */
  predicate IsSpace(c: char) {
    c == ' ' || c == '\t' || c == '\n' || c == '\U{000B}' || c == '\U{000C}' || c == '\r'
    || c == '\U{0085}' || c == '\U{00A0}'
  }

  ghost predicate AllSpace(s: string) {
    forall k :: 0 <= k < |s| ==> IsSpace(s[k])
  }

  /** Index of the first non-space character, or |s| when there is none. */
  function FirstVisible(s: string): (i: nat)
    ensures i <= |s|
    ensures forall k :: 0 <= k < i ==> IsSpace(s[k])
    ensures i < |s| ==> !IsSpace(s[i])
  {
    if |s| == 0 || !IsSpace(s[0]) then 0 else 1 + FirstVisible(s[1..])
  }

  /** One past the index of the last non-space character, or 0 when there is none. */
  function EndVisible(s: string): (j: nat)
    ensures j <= |s|
    ensures forall k :: j <= k < |s| ==> IsSpace(s[k])
    ensures 0 < j ==> !IsSpace(s[j - 1])
  {
    if |s| == 0 || !IsSpace(s[|s| - 1]) then |s| else EndVisible(s[..|s| - 1])
  }

  /** The slice s[i..j] is s with its leading and trailing white space cut
      off: everything outside it is space, and it neither starts nor ends
      with space. */
  ghost predicate TrimmedAt(r: string, s: string, i: int, j: int) {
    && 0 <= i <= j <= |s| && r == s[i..j]
    && (forall k :: 0 <= k < i ==> IsSpace(s[k]))
    && (forall k :: j <= k < |s| ==> IsSpace(s[k]))
    && (r != [] ==> !IsSpace(r[0]) && !IsSpace(r[|r| - 1]))
  }

  /** r is s trimmed of white space at both ends. */
  ghost predicate IsTrimOf(r: string, s: string) {
    exists i, j :: TrimmedAt(r, s, i, j)
  }

  function TrimSpace(s: string): (r: string)
    ensures r == [] <==> AllSpace(s)
    ensures r != [] ==> !IsSpace(r[0]) && !IsSpace(r[|r| - 1])
  {
    var i := FirstVisible(s);
    if i == |s| then [] else s[i..EndVisible(s)]
  }

  /** TrimSpace meets the reference definition. */
  lemma TrimSpaceIsTrim(s: string)
    ensures IsTrimOf(TrimSpace(s), s)
  {
    var i := FirstVisible(s);
    if i == |s| {
      assert TrimmedAt([], s, |s|, |s|);
    } else {
      var j := EndVisible(s);
      assert TrimmedAt(s[i..j], s, i, j);
    }
  }

  lemma TrimmedAtIsTrimSpace(r: string, s: string, i: int, j: int)
    requires TrimmedAt(r, s, i, j)
    ensures r == TrimSpace(s)
  {
    var f, e := FirstVisible(s), EndVisible(s);
    if r == [] {
      assert AllSpace(s) by {
        forall k | 0 <= k < |s| ensures IsSpace(s[k]) {
          assert k < i || j <= k;
        }
      }
    } else {
      assert s[i] == r[0];
      assert s[j - 1] == r[|r| - 1];
      assert f == i;
      assert e == j;
    }
  }

  /** There is only one way to trim a string, so IsTrimOf is a reference
      definition that pins TrimSpace down completely. */
  lemma TrimUnique(r1: string, r2: string, s: string)
    requires IsTrimOf(r1, s) && IsTrimOf(r2, s)
    ensures r1 == r2
  {
    var i1, j1 :| TrimmedAt(r1, s, i1, j1);
    var i2, j2 :| TrimmedAt(r2, s, i2, j2);
    TrimmedAtIsTrimSpace(r1, s, i1, j1);
    TrimmedAtIsTrimSpace(r2, s, i2, j2);
  }

  lemma TrimSpaceIdempotent(s: string)
    ensures TrimSpace(TrimSpace(s)) == TrimSpace(s)
  {
    var r := TrimSpace(s);
    if r != [] {
      assert TrimmedAt(r, r, 0, |r|);
      TrimmedAtIsTrimSpace(r, r, 0, |r|);
    }
  }

  /** s with every line feed removed, as strings.ReplaceAll(s, "\n", "") does. */
  function RemoveNewlines(s: string): (r: string)
    ensures '\n' !in r
    ensures '\n' !in s ==> r == s
  {
    if s == [] then [] else (if s[0] == '\n' then [] else [s[0]]) + RemoveNewlines(s[1..])
  }

  /** Nothing but the line feeds is removed. */
  lemma {:induction false} RemoveNewlinesKeepsOthers(s: string)
    ensures multiset(RemoveNewlines(s)) == multiset(s)['\n' := 0]
  {
    if s != [] {
      assert s == [s[0]] + s[1..];
      RemoveNewlinesKeepsOthers(s[1..]);
    }
  }

  /** Removal works piecewise: together with the one-character cases below
      it fixes the order of the kept characters. */
  lemma {:induction false} RemoveNewlinesAppend(a: string, b: string)
    ensures RemoveNewlines(a + b) == RemoveNewlines(a) + RemoveNewlines(b)
    decreases |a|
  {
    if a == [] {
      assert a + b == b;
    } else {
      assert (a + b)[0] == a[0];
      assert (a + b)[1..] == a[1..] + b;
      RemoveNewlinesAppend(a[1..], b);
    }
  }

  /** A line feed alone disappears; any other character is kept. */
  lemma RemoveNewlinesOfChar(c: char)
    ensures RemoveNewlines([c]) == if c == '\n' then [] else [c]
  {
    assert [c][1..] == [];
  }

  predicate HasSuffix(s: string, suffix: string) {
    |suffix| <= |s| && s[|s| - |suffix|..] == suffix
  }

  /** A string that differs from suffix at one of its positions, counted
      from the end, does not end with it. */
  lemma NoSuffixAt(s: string, suffix: string, k: nat)
    requires k < |suffix| <= |s| && s[|s| - |suffix| + k] != suffix[k]
    ensures !HasSuffix(s, suffix)
  {
    assert s[|s| - |suffix|..][k] == s[|s| - |suffix| + k];
  }

  lemma HasSuffixOfConcat(prefix: string, suffix: string)
    ensures HasSuffix(prefix + suffix, suffix)
  {
    assert (prefix + suffix)[|prefix|..] == suffix;
  }

  // ---------------------------------------------------------------- decimals

  predicate IsDigit(c: char) {
    '0' <= c <= '9'
  }

  predicate AllDigits(s: string) {
    forall k :: 0 <= k < |s| ==> IsDigit(s[k])
  }

  function DigitChar(d: nat): (c: char)
    requires d < 10
    ensures IsDigit(c) && DigitValue(c) == d
  {
    ('0' as int + d) as char
  }

  function DigitValue(c: char): (d: nat)
    requires IsDigit(c)
    ensures d < 10
  {
    c as int - '0' as int
  }

  /** Decimal digits of n, most significant first, without leading zeros. */
  function NatToString(n: nat): (s: string)
    ensures 1 <= |s|
    ensures AllDigits(s)
    ensures s[0] == '0' <==> n == 0
    ensures |s| == 1 <==> n < 10
    decreases n
  {
    if n < 10 then [DigitChar(n)] else NatToString(n / 10) + [DigitChar(n % 10)]
  }

  /** The rendering of strconv.Itoa and of "%d": a minus sign for negatives. */
  function IntToString(i: int): (s: string)
    ensures 1 <= |s|
    ensures s[0] == '-' <==> i < 0
    ensures AllDigits(if i < 0 then s[1..] else s)
  {
    if i < 0 then
      var digits := NatToString(-i);
      assert ("-" + digits)[1..] == digits;
      "-" + digits
    else NatToString(i)
  }

  function ParseNat(s: string): nat
    requires AllDigits(s)
  {
    if s == [] then 0 else 10 * ParseNat(s[..|s| - 1]) + DigitValue(s[|s| - 1])
  }

  /** Reads back a decimal integer; the left inverse of IntToString. */
  function ParseInt(s: string): Option<int> {
    if |s| > 1 && s[0] == '-' && AllDigits(s[1..]) then Some(-(ParseNat(s[1..]) as int))
    else if |s| > 0 && AllDigits(s) then Some(ParseNat(s))
    else None
  }

  lemma {:induction false} ParseNatToString(n: nat)
    ensures ParseNat(NatToString(n)) == n
    decreases n
  {
    if n >= 10 {
      var s := NatToString(n);
      assert s[..|s| - 1] == NatToString(n / 10);
      ParseNatToString(n / 10);
    }
  }

  lemma ParseIntToString(i: int)
    ensures ParseInt(IntToString(i)) == Some(i)
  {
    if i < 0 {
      ParseIntOfNegative(-i);
    } else {
      ParseIntOfNat(i);
    }
  }

  lemma ParseIntOfNat(n: nat)
    ensures ParseInt(NatToString(n)) == Some(n)
  {
    var s := NatToString(n);
    ParseNatToString(n);
    assert s[0] != '-';
  }

  lemma ParseIntOfNegative(n: nat)
    requires n > 0
    ensures ParseInt("-" + NatToString(n)) == Some(-(n as int))
  {
    var digits := NatToString(n);
    var s := "-" + digits;
    assert s[1..] == digits;
    ParseNatToString(n);
  }

  /** Distinct integers render differently, so a rendered code identifies it. */
  lemma IntToStringInjective(a: int, b: int)
    requires IntToString(a) == IntToString(b)
    ensures a == b
  {
    ParseIntToString(a);
    ParseIntToString(b);
  }
}

=== FILE: wrappers.dfy ===
/** Option and Result, the shapes the Go code expresses with nil pointers and
    (value, error) pairs. */
module Wrappers {

  datatype Option<+T> = None | Some(value: T) {
    function GetOr(default: T): T {
      match this
      case Some(v) => v
      case None => default
    }
  }

  datatype Result<+R, +E> = Ok(value: R) | Err(error: E) {
    predicate IsFailure() {
      Err?
    }

    function PropagateFailure<U>(): Result<U, E>
      requires Err?
    {
      Err(error)
    }

    function Extract(): R
      requires Ok?
    {
      value
    }
  }
}
